=== FILE: README.md ===
# Smart ambulance backend: a Dafny model of its data handling

The backend answers an emergency request. It takes the caller's coordinate and finds the nearest hospital by asking Overpass (OpenStreetMap) for hospitals within 5 km. It then asks OSRM for a driving route from the caller to that hospital and returns the hospital with the route. This project models the three pure pieces of that path. The network and the web framework are left out.

- **Hospital locator** (`HospitalService`, `hospital.dfy`). This covers `_parse_hospital_element`, the element loop of `_search_hospitals`, and the distance scan of `find_nearest_hospital`.
  - Each Overpass element becomes a record or is dropped. A node takes its own `lat`/`lon` and any other type takes `center`.
  - The name is the first truthy of `name`, `name:en` and `operator`, falling back to "Unknown Hospital".
  - The address joins the truthy `addr:street` and `addr:city` with ", ", falling back to "Address not available".
  - The facility type is the `healthcare` tag, defaulting to "hospital".
  - The nearest record is the first candidate with the least distance. The scan uses a strict `<`, so on a tie the earliest candidate wins.
- **Route planner** (`RoutingService`, `routing.dfy`). This covers `get_route`.
  - It builds the `lng,lat;lng,lat` waypoint string.
  - It requires `code == "Ok"` and a non-empty `routes` list.
  - It takes the first route's GeoJSON positions, which are `[longitude, latitude]` by section 3.1.1 of RFC 7946, and reorders each to `[latitude, longitude]`.
- **Request handler** (`EmergencyHandler`, `emergency.dfy`). This covers the decision logic of `handle_emergency`: the field check, the `float` conversion, the inclusive range check, the 404 when no hospital is found, the 500 for a missing or empty route, and the success payload. `Serve` wires the handler to the two service models.

The Python code learns about data by sniffing its shape and swallows exceptions into `None`. So the model works on a generic decoded-JSON datatype (`PyJson.Json`). Each Python operation the services apply is modelled with the exception Python would raise on a value of the wrong shape: `in`, `[key]`, `.get`, `[i]`, `float()` and `str.join`. `PyResult` is failure-compatible, so `:-` propagates a raise the way Python unwinds. Each `try`/`except` then decides what the raise becomes. It becomes `None` in the services, and 400 or 500 in the handler.

Some collaborators are parameters, because their behaviour is not part of this code:
- the Overpass and OSRM exchanges, each given as a decoded response or None for a transport, status or decoding failure;
- `calculate_distance`, given as a function that may fail, where None stands for a raise;
- Python's `float()` on strings;
- Python's `str()` of a value inside an f-string.

Some behaviours of the code are easy to misread. The model follows the code in each:
- The name order is `name`, then `name:en`, then `operator`. The generic name comes before the localized one.
- An empty `healthcare` tag is kept as the type. "hospital" is used only when the key is absent.
- Street and city are used only when truthy. An empty string counts as absent.
- The locator also returns None when a distance computation raises, because that `try` covers the whole scan. It does not return None only for an empty candidate list.
- Only a string that `float` cannot parse gives 400 "Invalid coordinate format". A `null`, list or object coordinate makes `float` raise TypeError, and the handler answers 500 "Internal server error".
- Route points and hospital coordinates are whatever JSON values the providers sent. Nothing checks that they are numbers.

## Model

| member | source | states |
|---|---|---|
| `PyJson.Contains` | smart-ambulance/backend/app.py:32 | `key in data` is a key test on an object and an item test on a list. On a string it is a substring test, and it raises TypeError on anything else. |
| `PyJson.IsSubstringAtOffset` | smart-ambulance/backend/app.py:32 | The substring reading of `'lat' in data` holds exactly when the key occurs at some offset of the string. |
| `PyJson.ToFloat` | smart-ambulance/backend/app.py:37-38 | `float(v)` raises ValueError exactly for a string the parser rejects. It succeeds exactly for numbers, booleans and parsable strings. A number converts to itself, True and False to 1.0 and 0.0, and a parsable string to the parser's value. Every other value raises TypeError. |
| `PyJson.Subscript` | smart-ambulance/backend/services/hospital_service.py:85-90 | `v[key]` yields a value iff `v` is a dict holding the key, and then the key's value. A dict without the key raises KeyError, and any other value raises TypeError. This is also the indexing in app.py at lines 37-38. |
| `PyJson.Get` | smart-ambulance/backend/services/hospital_service.py:95 | `v.get(key, default)` succeeds iff `v` is a dict. It gives the key's value when present and the default otherwise. Anything else raises AttributeError. This is also the `.get` calls in routing_service.py at lines 31-42. |
| `PyJson.Item` | smart-ambulance/backend/services/routing_service.py:41-45 | `v[i]` succeeds iff `v` is a list or a string with more than `i` items. A list gives its item and a string its one-character string. Out of range raises IndexError, a dict raises KeyError and anything else TypeError. |
| `PyJson.Join` | smart-ambulance/backend/services/hospital_service.py:108 | `', '.join(parts)` succeeds iff every part is a string. One part gives that part, and two parts give them with the separator between. |
| `HospitalService.ParseElement` | smart-ambulance/backend/services/hospital_service.py:81-120 | An element gives a record iff three things hold: it is an object; its type has the position keys that type needs; and its tags are a mapping whose truthy street and city are strings. The record's position is the declared one. Its name is truthy, its address non-empty, and it has no distance yet. |
| `HospitalService.NodeIgnoresCenter` | smart-ambulance/backend/services/hospital_service.py:85-87 | A node takes its own `lat`/`lon`. Adding, changing or removing `center` never changes its result. |
| `HospitalService.OtherTypesIgnoreOwnPosition` | smart-ambulance/backend/services/hospital_service.py:88-90 | A non-node takes `center.lat`/`center.lon`. Top-level `lat`/`lon` never change its result. |
| `HospitalService.MissingKeysReject` | smart-ambulance/backend/services/hospital_service.py:83-92 | Any of these gives None instead of a raise: a missing `type`, a node without `lat` or `lon`, a non-node without `center`, or a center that is not an object or lacks `lat`/`lon`. |
| `HospitalService.OrChainIsFirstTruthy` | smart-ambulance/backend/services/hospital_service.py:96-99 | On a tag mapping, the `or` chain yields the value of the first key whose tag is truthy. It yields the default when no key's tag is truthy. |
| `HospitalService.ParseElementName` | smart-ambulance/backend/services/hospital_service.py:95-99 | An accepted element's name is the first truthy of `name`, `name:en`, `operator`, otherwise "Unknown Hospital". So it is always truthy. |
| `HospitalService.AddressOfAccepts` | smart-ambulance/backend/services/hospital_service.py:102-108 | Building the address raises iff a truthy street or city is not a string. When it succeeds the address is non-empty. |
| `HospitalService.ParseElementAddress` | smart-ambulance/backend/services/hospital_service.py:102-108 | The address is street + ", " + city when both are truthy, and the one truthy part when only one is. It is "Address not available" when neither is. |
| `HospitalService.ParseElementType` | smart-ambulance/backend/services/hospital_service.py:115 | The type is the `healthcare` tag whenever the key exists, even when the value is falsy. It is "hospital" only when the key is absent. |
| `HospitalService.MissingTagsAreEmpty` | smart-ambulance/backend/services/hospital_service.py:95 | An element without `tags` parses exactly like the same element with empty tags. |
| `HospitalService.ParseElementRoundTrip` | smart-ambulance/backend/services/hospital_service.py:110-116 | Every record with a truthy name, a non-empty address and no distance is the parse of a node element that carries its fields. So re-parsing a parsed record's element gives the record back. |
| `HospitalService.WayWithCenterExample` | smart-ambulance/backend/services/hospital_service.py:88-116 | A way with center (10, 20) and name "City Hospital" gives that name, that position, the address sentinel and type "hospital". |
| `HospitalService.OperatorNameExample` | smart-ambulance/backend/services/hospital_service.py:96-99 | With only `operator` set, the operator names the facility. With only an empty `name`, "Unknown Hospital" does. |
| `HospitalService.FilterParse` | smart-ambulance/backend/services/hospital_service.py:67-70 | The loop keeps no more records than there are elements, and every record kept is the parse of some element. Order and completeness are stated by `FilterParseAppend`, `FilterParseSingle`, `FilterParseAllAccepted` and `FilterParseNoneAccepted`. |
| `HospitalService.FilterParseAllAccepted` | smart-ambulance/backend/services/hospital_service.py:67-70 | When every element parses, the loop keeps one record per element, and record i is the parse of element i. |
| `HospitalService.FilterParseNoneAccepted` | smart-ambulance/backend/services/hospital_service.py:67-70 | When no element parses, the loop keeps nothing. |
| `HospitalService.FilterParseAppend` | smart-ambulance/backend/services/hospital_service.py:67-70 | Filtering distributes over concatenation. Records therefore appear in element order, and each element's contribution is independent of its neighbours. |
| `HospitalService.FilterParseSingle` | smart-ambulance/backend/services/hospital_service.py:68-70 | One element contributes exactly its parsed record, or nothing when it is rejected. |
| `HospitalService.Search` | smart-ambulance/backend/services/hospital_service.py:42-79 | A failed request gives no candidates. Candidates exist only when the response is an object with an `elements` list. Every candidate has a truthy name, a non-empty address and no distance yet. The exact candidate list is stated by `SearchCandidates`. |
| `HospitalService.SearchCandidates` | smart-ambulance/backend/services/hospital_service.py:64-72 | The candidates of a response object are the filtered `elements` list. A missing `elements` key or a non-list value gives no candidates. |
| `HospitalService.FirstMinIndex` | smart-ambulance/backend/services/hospital_service.py:24-33 | The strict-`<` scan ends on the first position holding the least distance. |
| `HospitalService.FirstMinimumUnique` | smart-ambulance/backend/services/hospital_service.py:31-33 | At most one position is the first minimum, so the candidate order fully determines the choice. |
| `HospitalService.NearestExample` | smart-ambulance/backend/services/hospital_service.py:27-33 | Distances 300, 150, 900 select the second candidate. Distances 150, 300, 150 keep the first. |
| `HospitalService.Nearest` | smart-ambulance/backend/services/hospital_service.py:14-40 | The result is None iff the candidate list is empty or some distance raises. Otherwise it is the first-minimum candidate with its distance stored. |
| `HospitalService.NearestIsFirstClosest` | smart-ambulance/backend/services/hospital_service.py:27-36 | The selected record is candidate k with its own distance set. That distance is at most every candidate's distance and strictly below every earlier candidate's. |
| `HospitalService.NothingFoundExample` | smart-ambulance/backend/services/hospital_service.py:18-21 | A failed search, or a response with an empty element list, locates no hospital. |
| `HospitalService.ScanNearest` | smart-ambulance/backend/services/hospital_service.py:24-36 | The single pass over a non-empty list starts from `float('inf')`, stores each distance and keeps a candidate only when it is strictly closer. It returns None when a distance raises. It returns exactly the selection `Nearest` specifies. |
| `HospitalService.FindNearestHospital` | smart-ambulance/backend/services/hospital_service.py:14-40 | Search, then None for an empty list, otherwise the scan. The result is exactly the selection `Nearest` specifies for the searched candidates. |
| `RoutingService.Waypoints` | smart-ambulance/backend/services/routing_service.py:16 | The waypoint string begins with the rendered start longitude and ends with the rendered end latitude. Its length is that of the four renderings plus the three separators. `WaypointsLongitudeFirst` states the full split-back. |
| `RoutingService.WaypointsLongitudeFirst` | smart-ambulance/backend/services/routing_service.py:15-16 | Split on ';' then ',', the waypoint string gives the start as (longitude, latitude) and then the end as (longitude, latitude). |
| `RoutingService.StatusMustBeOk` | smart-ambulance/backend/services/routing_service.py:31-33 | A response that is not an object, or whose `code` is missing or not exactly "Ok", gives no route. |
| `RoutingService.RoutesMustBePresent` | smart-ambulance/backend/services/routing_service.py:35-38 | With status "Ok", a missing, empty or falsy `routes` gives no route. |
| `RoutingService.OnlyFirstRouteUsed` | smart-ambulance/backend/services/routing_service.py:41-42 | Alternatives after `routes[0]` never affect the result. |
| `RoutingService.MissingGeometryIsEmpty` | smart-ambulance/backend/services/routing_service.py:41-42 | A first route without `geometry`, or a geometry without `coordinates`, yields an empty route, not None. |
| `RoutingService.RouteOf` | smart-ambulance/backend/services/routing_service.py:29-55 | A route is produced only when the decoded response is an object whose `code` is exactly "Ok" and whose `routes` is truthy. Every exception gives None. The other lemmas in this section state the rest. |
| `RoutingService.GetRoute` | smart-ambulance/backend/services/routing_service.py:12-55 | A route is produced only when OSRM answered the waypoint request with an object whose `code` is "Ok". A failed exchange gives None. |
| `RoutingService.SwapAll` | smart-ambulance/backend/services/routing_service.py:45 | The comprehension succeeds iff every position has components 0 and 1. It then yields one point per position, in order, each being `[coord[1], coord[0]]`. |
| `RoutingService.Reproject` | smart-ambulance/backend/services/routing_service.py:45 | The comprehension over `coordinates` behaves as follows. On a list it is the pointwise swap. On a string it succeeds only when the string is empty, because a one-character item has no `[1]`. On an object it succeeds only when the object is empty; the non-empty case is listed under Left out. On anything else it raises TypeError. Whenever it succeeds on something other than a list, the route is empty. |
| `RoutingService.RouteSwapsEachPosition` | smart-ambulance/backend/services/routing_service.py:41-48 | For an "Ok" response whose first route lists positions: the route exists iff every position has two components. It has as many points as positions, and point i is `[lat, lng]` taken from position i. Further components are dropped. |
| `RoutingService.ReprojectToPositions` | smart-ambulance/backend/services/routing_service.py:45 | Reordering the GeoJSON `[lng, lat]` positions of any point list gives that list back. |
| `RoutingService.PositionsOfReprojected` | smart-ambulance/backend/services/routing_service.py:45 | For two-component positions, converting the reordered points back to GeoJSON gives the positions back. |
| `RoutingService.ReprojectExample` | smart-ambulance/backend/services/routing_service.py:45 | `[[20,10],[21,11]]` becomes `[[10,20],[11,21]]`. |
| `EmergencyHandler.HandleEmergency` | smart-ambulance/backend/app.py:27-80 | The status is one of 200, 400, 404 or 500. A 400 is always one of the three messages: missing fields, invalid coordinates or invalid format. A 200 or 404 is given only after the body has stated an in-range origin. `HandleEmergencyOutcomes` gives the full characterisation. |
| `EmergencyHandler.Dispatch` | smart-ambulance/backend/app.py:49-70 | Once the origin is valid the status is 200, 404 or 500. It is 404 exactly when no hospital is located. A 200 carries a non-empty route and the located hospital's name. |
| `EmergencyHandler.HandleEmergencyOutcomes` | smart-ambulance/backend/app.py:27-80 | The status is always one of 200, 400, 404 or 500. It is 200 iff all of these hold: the body states an origin that converts and is in range; a hospital is located from it; and a non-empty route leads from the origin to that hospital's lat/lng. The payload then holds that hospital's name, position, distance (default 0) and address, and the route unchanged. |
| `EmergencyHandler.MissingFieldsFirst` | smart-ambulance/backend/app.py:31-35 | A falsy body, or an object lacking `lat` or `lng`, gives 400 "Missing required fields". This holds whatever the services do. |
| `EmergencyHandler.NonObjectBodies` | smart-ambulance/backend/app.py:32-38 | A list or string body without "lat" gives the missing-fields error. With both names present, indexing by name fails and the answer is 500. |
| `EmergencyHandler.UnconvertibleCoordinates` | smart-ambulance/backend/app.py:37-38 | An unparsable `lat` string, or a convertible `lat` with an unparsable `lng` string, gives 400 "Invalid coordinate format". A `null`, list or object `lat` gives 500. |
| `EmergencyHandler.RangeCheck` | smart-ambulance/backend/app.py:41-44 | Converted coordinates outside lat in [-90, 90] or lng in [-180, 180] give 400 "Invalid coordinates" before any service call. Inside those ranges, boundaries included, the services decide. |
| `EmergencyHandler.BoundaryOriginAccepted` | smart-ambulance/backend/app.py:41 | The corner origin (90, -180) passes the range check and reaches the services. |
| `EmergencyHandler.NoHospitalSkipsRouting` | smart-ambulance/backend/app.py:49-53 | No hospital gives 404, and the router's behaviour cannot change the answer. |
| `EmergencyHandler.EmptyRouteIsFailure` | smart-ambulance/backend/app.py:56-60 | A missing route and an empty route both give 500 "Could not calculate route to hospital". |
| `EmergencyHandler.ServeSuccess` | smart-ambulance/backend/app.py:56-70 | With the service models plugged in, a 200 reports the first-closest candidate found around the origin with its own distance. The route is the non-empty reordered first OSRM route for the origin-to-hospital waypoints. |

## Left out

- The HTTP exchanges are left out: `requests.post`/`requests.get`, `raise_for_status`, timeouts and the `RequestException` branches. Each exchange is a parameter returning a decoded response, or None for any transport, status or decoding failure.
- The Overpass query text is left out. It is string formatting into another query language. The search radius constant (5000 m) is passed to the Overpass parameter.
- The haversine formula in `utils/distance.py` is not part of this model. The distance is a parameter that may fail.
- The model has no NaN or infinities, because it uses exact reals. In Python, `float('nan')` fails the range check. When every distance is infinite or NaN, none is `< inf`, so nothing is chosen, the `['name']` lookup raises and the locator returns None. A NaN or infinite distance among finite ones is skipped and a finite candidate is chosen. The model cannot express such a candidate: its distance either fails the whole search (None) or is a real that competes in the choice.
- `float()` on strings is a parameter: a parse that may fail. `float()` of a huge integer raises OverflowError, and the model does not include that.
- Python's `str()` inside the waypoint f-string is a parameter.
- JSON integers and floats are one kind, `JNum` with a real value. Python keeps them apart: `str()` renders 77 as "77" but 77.0 as "77.0", and the payload echoes the hospital's `lat`/`lng` with their original type. The model cannot tell the two apart, so the `Render` parameter sees the same value for both.
- Flask is left out: routing, CORS, the health check, the error handlers, logging and `app.run`. So are `get_json` failures, which the framework raises inside the handler's `try`. The decoded body is an input, with JNull meaning no JSON body.
- JSON objects are unordered maps, so insertion order and duplicate keys are not modelled.
- `RoutingService.Reproject`: iterating a non-empty object given as `coordinates` would yield its keys in insertion order. The model cannot see that order and treats such a response as a failure.
- `HospitalService.FindNearestHospital`: the source writes a `distance` into every candidate dict. Only the returned record's distance is modelled, because the other dicts are discarded.
- The frontend (`frontend/js/app.js`) is left out. It is browser UI: the map, the DOM and geolocation.

=== FILE: emergency.dfy ===
/** The decision logic of the `/emergency` handler: checking the request
    body, converting and range-checking the coordinates, calling the hospital
    locator and then the route planner, and turning their results into a
    status code and a reply. The two services are parameters, so that the
    handler's own decisions can be stated for any service behaviour;
    `Serve` plugs in the models of the two services. */
module EmergencyHandler {
  import opened PyJson
  import HospitalService
  import RoutingService

  type Hospital = HospitalService.Hospital
  type LatLng = RoutingService.LatLng

  /** `hospital_service.find_nearest_hospital(lat, lng)`. */
  type Locator = (real, real) -> Option<Hospital>

  /** `routing_service.get_route(start_lat, start_lng, end_lat, end_lng)`. */
  type Router = (real, real, Json, Json) -> Option<seq<LatLng>>

  /** The success body. */
  datatype Payload = Payload(
    hospital: Json,
    hospitalLat: Json,
    hospitalLng: Json,
    route: seq<LatLng>,
    distance: real,
    address: string)

  datatype Reply = Error(message: string) | Found(payload: Payload)

  datatype Response = Response(status: int, reply: Reply)

  const MissingFields: Response := Response(400, Error("Missing required fields: lat, lng"))
  const BadCoordinates: Response := Response(400, Error("Invalid coordinates"))
  const NoHospital: Response := Response(404, Error("No hospitals found in the area"))
  const NoRoute: Response := Response(500, Error("Could not calculate route to hospital"))
  const BadFormat: Response := Response(400, Error("Invalid coordinate format"))
  const InternalError: Response := Response(500, Error("Internal server error"))

  /** Both bounds inclusive. */
  predicate InRange(lat: real, lng: real) {
    -90.0 <= lat <= 90.0 && -180.0 <= lng <= 180.0
  }

  /** What happens once the origin is valid: the locator, then (only with
      a hospital) the router from the origin to the hospital's position. */
  function Dispatch(lat: real, lng: real, locate: Locator, route: Router): (r: Response)
    ensures r.status in {200, 404, 500}
    ensures r.status == 404 <==> locate(lat, lng).None?
    ensures r.status == 200 ==> r.reply.Found? && r.reply.payload.route != []
    ensures r.status == 200 ==> r.reply.payload.hospital == locate(lat, lng).value.name
  {
    match locate(lat, lng)
    case None => NoHospital
    case Some(h) =>
      match route(lat, lng, h.lat, h.lng)
      case None => NoRoute
      case Some(points) =>
        if points == [] then NoRoute
        else
          // a located record always carries an address, so the handler's
          // default for a missing one never applies
          Response(200, Found(Payload(h.name, h.lat, h.lng, points, h.distance.GetOr(0.0), h.address)))
  }

  /** The handler's body inside its `try`; `data` is the decoded request
      body, JNull when there is none. */
  function HandleBody(data: Json, parse: FloatParser, locate: Locator, route: Router): PyResult<Response>
  {
    if !Truthy(data) then Value(MissingFields)
    else
      var hasLat :- Contains(data, "lat");
      if !hasLat then Value(MissingFields)
      else
        var hasLng :- Contains(data, "lng");
        if !hasLng then Value(MissingFields)
        else
          var latField :- Subscript(data, "lat");
          var lat :- ToFloat(latField, parse);
          var lngField :- Subscript(data, "lng");
          var lng :- ToFloat(lngField, parse);
          if !InRange(lat, lng) then Value(BadCoordinates)
          else Value(Dispatch(lat, lng, locate, route))
  }

  /** `handle_emergency`: a ValueError is a format error, any other
      exception an internal error. */
  function HandleEmergency(data: Json, parse: FloatParser, locate: Locator, route: Router): (r: Response)
    ensures r.status in {200, 400, 404, 500}
    ensures r.status == 400 ==> r == MissingFields || r == BadCoordinates || r == BadFormat
    ensures r.status == 200 || r.status == 404 ==>
      OriginOf(data, parse).Some? && InRange(OriginOf(data, parse).value.0, OriginOf(data, parse).value.1)
  {
    match HandleBody(data, parse, locate, route)
    case Value(r) => r
    case Raise(ValueError) => BadFormat
    case Raise(_) => InternalError
  }

  // ---------------------------------------------------------------------
  // Properties
  // ---------------------------------------------------------------------

  /** The origin a body states: an object holding `lat` and `lng` that both
      convert with `float`. */
  function OriginOf(data: Json, parse: FloatParser): Option<(real, real)>
  {
    if data.JObj? && "lat" in data.fields && "lng" in data.fields
       && ToFloat(data.fields["lat"], parse).Value? && ToFloat(data.fields["lng"], parse).Value?
    then Some((ToFloat(data.fields["lat"], parse).value, ToFloat(data.fields["lng"], parse).value))
    else None
  }

  /** The handler answers with one of four statuses, and with 200 exactly
      when the body states an in-range origin, a hospital is located from it
      and a non-empty route leads from the origin to that hospital; the
      payload then reports that hospital and that route unchanged. */
  lemma HandleEmergencyOutcomes(data: Json, parse: FloatParser, locate: Locator, route: Router)
    ensures HandleEmergency(data, parse, locate, route).status in {200, 400, 404, 500}
    ensures HandleEmergency(data, parse, locate, route).status == 200 <==>
      && OriginOf(data, parse).Some?
      && var (lat, lng) := OriginOf(data, parse).value;
      && InRange(lat, lng)
      && locate(lat, lng).Some?
      && var h := locate(lat, lng).value;
      && route(lat, lng, h.lat, h.lng).Some?
      && route(lat, lng, h.lat, h.lng).value != []
    ensures HandleEmergency(data, parse, locate, route).status == 200 ==>
      var (lat, lng) := OriginOf(data, parse).value;
      var h := locate(lat, lng).value;
      HandleEmergency(data, parse, locate, route).reply ==
        Found(Payload(h.name, h.lat, h.lng, route(lat, lng, h.lat, h.lng).value, h.distance.GetOr(0.0), h.address))
  {
  }

  /** No body, a falsy body, or an object without `lat` or `lng` is a
      missing-fields error whatever the services would do: neither is called. */
  lemma MissingFieldsFirst(data: Json, parse: FloatParser, locate: Locator, route: Router)
    requires !Truthy(data) || (data.JObj? && ("lat" !in data.fields || "lng" !in data.fields))
    ensures HandleEmergency(data, parse, locate, route) == MissingFields
  {
  }

  /** A body that is a list or a string is probed with `in`: without the
      field names it is a missing-fields error, with both it cannot be
      indexed by name and the handler fails internally. */
  lemma NonObjectBodies(data: Json, parse: FloatParser, locate: Locator, route: Router)
    requires Truthy(data) && (data.JArr? || data.JStr?)
    ensures Contains(data, "lat") == Value(false) ==> HandleEmergency(data, parse, locate, route) == MissingFields
    ensures Contains(data, "lat") == Value(true) && Contains(data, "lng") == Value(true) ==>
      HandleEmergency(data, parse, locate, route) == InternalError
  {
  }

  /** A coordinate string `float` cannot parse is a format error; `lat` is
      converted first. A coordinate that is null, a list or an object makes
      `float` raise TypeError, which is an internal error. */
  lemma UnconvertibleCoordinates(f: map<string, Json>, parse: FloatParser, locate: Locator, route: Router)
    requires "lat" in f && "lng" in f
    ensures f["lat"].JStr? && parse(f["lat"].s).None? ==>
      HandleEmergency(JObj(f), parse, locate, route) == BadFormat
    ensures ToFloat(f["lat"], parse).Value? && f["lng"].JStr? && parse(f["lng"].s).None? ==>
      HandleEmergency(JObj(f), parse, locate, route) == BadFormat
    ensures (f["lat"].JNull? || f["lat"].JArr? || f["lat"].JObj?) ==>
      HandleEmergency(JObj(f), parse, locate, route) == InternalError
  {
  }

  /** Converted coordinates outside the inclusive ranges are rejected before
      any service call; inside them, boundaries included, the services decide. */
  lemma RangeCheck(f: map<string, Json>, parse: FloatParser, locate: Locator, route: Router)
    requires OriginOf(JObj(f), parse).Some?
    ensures
      var (lat, lng) := OriginOf(JObj(f), parse).value;
      HandleEmergency(JObj(f), parse, locate, route) ==
        if InRange(lat, lng) then Dispatch(lat, lng, locate, route) else BadCoordinates
  {
  }

  /** No hospital is a 404 and the router is never consulted. */
  lemma NoHospitalSkipsRouting(lat: real, lng: real, locate: Locator, route1: Router, route2: Router)
    requires locate(lat, lng).None?
    ensures Dispatch(lat, lng, locate, route1) == NoHospital
    ensures Dispatch(lat, lng, locate, route1) == Dispatch(lat, lng, locate, route2)
  {
  }

  /** A missing route and an empty route are both a 500. */
  lemma EmptyRouteIsFailure(lat: real, lng: real, locate: Locator, route: Router)
    requires locate(lat, lng).Some?
    requires
      var h := locate(lat, lng).value;
      route(lat, lng, h.lat, h.lng).None? || route(lat, lng, h.lat, h.lng) == Some([])
    ensures Dispatch(lat, lng, locate, route) == NoRoute
  {
  }

  /** A concrete body at the corner of the valid range reaches the services. */
  lemma BoundaryOriginAccepted(parse: FloatParser, locate: Locator, route: Router)
    ensures HandleEmergency(JObj(map["lat" := JNum(90.0), "lng" := JNum(-180.0)]), parse, locate, route) ==
      Dispatch(90.0, -180.0, locate, route)
  {
    var f := map["lat" := JNum(90.0), "lng" := JNum(-180.0)];
    assert OriginOf(JObj(f), parse) == Some((90.0, -180.0));
    RangeCheck(f, parse, locate, route);
  }

  // ---------------------------------------------------------------------
  // The handler over the service models
  // ---------------------------------------------------------------------

  /** The Overpass service: decoded response for a search around a point
      with a radius in metres. */
  type Overpass = (real, real, int) -> Option<Json>

  /** The locator the handler uses: search the fixed radius, pick the nearest. */
  function Locate(overpass: Overpass, dist: HospitalService.Distance): Locator {
    (lat: real, lng: real) =>
      HospitalService.Nearest(lat, lng,
        HospitalService.Search(overpass(lat, lng, HospitalService.SearchRadius)), dist)
  }

  /** The router the handler uses. */
  function Route(render: RoutingService.Render, osrm: RoutingService.Osrm): Router {
    (startLat: real, startLng: real, endLat: Json, endLng: Json) =>
      RoutingService.GetRoute(startLat, startLng, endLat, endLng, render, osrm)
  }

  /** The whole request path over the two service models. */
  function Serve(
    data: Json, parse: FloatParser,
    overpass: Overpass, dist: HospitalService.Distance,
    render: RoutingService.Render, osrm: RoutingService.Osrm): Response
  {
    HandleEmergency(data, parse, Locate(overpass, dist), Route(render, osrm))
  }

  /** On success the reported hospital is the first closest of the
      candidates found around the origin, its reported distance is its own,
      and the route is the non-empty reprojected first route OSRM returned
      for the origin-to-hospital waypoints. */
  lemma ServeSuccess(
    data: Json, parse: FloatParser,
    overpass: Overpass, dist: HospitalService.Distance,
    render: RoutingService.Render, osrm: RoutingService.Osrm)
    ensures Serve(data, parse, overpass, dist, render, osrm).status == 200 ==> OriginOf(data, parse).Some?
    ensures Serve(data, parse, overpass, dist, render, osrm).status == 200 ==>
      var (lat, lng) := OriginOf(data, parse).value;
      var cands := HospitalService.Search(overpass(lat, lng, HospitalService.SearchRadius));
      var h := HospitalService.Nearest(lat, lng, cands, dist).value;
      var p := Serve(data, parse, overpass, dist, render, osrm).reply.payload;
      && (exists k :: HospitalService.ClosestAt(lat, lng, cands, dist, k, h))
      && p.hospital == h.name && p.hospitalLat == h.lat && p.hospitalLng == h.lng
      && p.distance == h.distance.value
      && osrm(RoutingService.Waypoints(lat, lng, h.lat, h.lng, render)).Some?
      && p.route == RoutingService.RouteOf(osrm(RoutingService.Waypoints(lat, lng, h.lat, h.lng, render)).value).value
      && p.route != []
  {
    var locate, route := Locate(overpass, dist), Route(render, osrm);
    HandleEmergencyOutcomes(data, parse, locate, route);
    if Serve(data, parse, overpass, dist, render, osrm).status == 200 {
      var (lat, lng) := OriginOf(data, parse).value;
      var cands := HospitalService.Search(overpass(lat, lng, HospitalService.SearchRadius));
      HospitalService.NearestIsFirstClosest(lat, lng, cands, dist);
    }
  }
}

=== FILE: hospital.dfy ===
/** The hospital locator of `HospitalService`: turning the elements of an
    Overpass response into normalised facility records, and picking the one
    nearest to the caller. The HTTP exchange with Overpass is a parameter
    (the decoded response, or None when the request, the status check or the
    JSON decoding failed); the great-circle distance is a parameter too. */
module HospitalService {
  import opened PyJson

  /** A normalised facility: the dict `_parse_hospital_element` builds, with
      the `distance` key that `find_nearest_hospital` adds later (None until
      then). Coordinates and name are whatever JSON values the element held. */
  datatype Hospital = Hospital(
    name: Json,
    lat: Json,
    lng: Json,
    address: string,
    facilityType: Json,
    distance: Option<real>)

  /** The search radius in metres, fixed by the service's constructor. */
  const SearchRadius: int := 5000

  const UnknownName: Json := JStr("Unknown Hospital")
  const NoAddress: string := "Address not available"
  const DefaultType: Json := JStr("hospital")

  /** Tags tried for the name, most preferred first. */
  const NameKeys: seq<string> := ["name", "name:en", "operator"]

  // ---------------------------------------------------------------------
  // One element
  // ---------------------------------------------------------------------

  /** Python's `tags.get(k0) or tags.get(k1) or ... or default`. */
  function OrChain(tags: Json, keys: seq<string>, default: Json): PyResult<Json>
    decreases |keys|
  {
    if keys == [] then Value(default)
    else
      var v :- Get(tags, keys[0], JNull);
      if Truthy(v) then Value(v) else OrChain(tags, keys[1..], default)
  }

  /** The street tag and then the city tag, each only when truthy, joined by
      ", "; the sentinel when neither is. */
  function AddressOf(tags: Json): PyResult<string>
  {
    var street :- Get(tags, "addr:street", JNull);
    var city :- Get(tags, "addr:city", JNull);
    var parts := (if Truthy(street) then [street] else []) + (if Truthy(city) then [city] else []);
    if parts == [] then Value(NoAddress) else Join(parts, ", ")
  }

  /** The coordinate lookup: a node's own `lat`/`lon`, otherwise the
      `center` object's, and an explicit `None` when there is no center. */
  function LocationOf(element: Json): PyResult<Option<(Json, Json)>>
  {
    var kind :- Subscript(element, "type");
    if kind == JStr("node") then
      var lat :- Subscript(element, "lat");
      var lng :- Subscript(element, "lon");
      Value(Some((lat, lng)))
    else
      var hasCenter :- Contains(element, "center");
      if !hasCenter then Value(None)
      else
        var center :- Subscript(element, "center");
        var lat :- Subscript(center, "lat");
        var lng :- Subscript(center, "lon");
        Value(Some((lat, lng)))
  }

  /** The body of `_parse_hospital_element` inside its `try`. */
  function ParseElementBody(element: Json): PyResult<Option<Hospital>>
  {
    var location :- LocationOf(element);
    match location
    case None => Value(None)
    case Some((lat, lng)) =>
      var tags :- Get(element, "tags", JObj(map[]));
      var name :- OrChain(tags, NameKeys, UnknownName);
      var address :- AddressOf(tags);
      var facilityType :- Get(tags, "healthcare", DefaultType);
      Value(Some(Hospital(name, lat, lng, address, facilityType, None)))
  }

  /** `_parse_hospital_element`: any exception becomes None. */
  function ParseElement(element: Json): (r: Option<Hospital>)
    ensures r.Some? <==> element.JObj? && PositionOf(element.fields).Some? && UsableTags(element.fields)
    ensures r.Some? ==> (r.value.lat, r.value.lng) == PositionOf(element.fields).value
    ensures r.Some? ==> Normalised(r.value)
  {
    ParseElementAccepts(element);
    match ParseElementBody(element)
    case Value(h) => h
    case Raise(_) => None
  }

  // ---------------------------------------------------------------------
  // Declarative reading of an element
  // ---------------------------------------------------------------------

  /** Where an element's position is declared: a node's own `lat`/`lon`,
      any other type's `center.lat`/`center.lon`; None when the element has
      no type or lacks the keys its type needs. */
  function PositionOf(f: map<string, Json>): Option<(Json, Json)>
  {
    if "type" !in f then None
    else if f["type"] == JStr("node") then
      if "lat" in f && "lon" in f then Some((f["lat"], f["lon"])) else None
    else if "center" in f && f["center"].JObj? && "lat" in f["center"].fields && "lon" in f["center"].fields then
      Some((f["center"].fields["lat"], f["center"].fields["lon"]))
    else None
  }

  /** The tags of an element, absent tags reading as an empty mapping. */
  function TagsOf(f: map<string, Json>): Json {
    if "tags" in f then f["tags"] else JObj(map[])
  }

  /** `k` is a tag whose value is truthy. */
  predicate TruthyTag(tags: map<string, Json>, k: string) {
    k in tags && Truthy(tags[k])
  }

  /** A truthy address tag must be a string, or joining the parts fails. */
  predicate AddressTagUsable(tags: map<string, Json>, k: string) {
    TruthyTag(tags, k) ==> tags[k].JStr?
  }

  /** The tags admit a record: a mapping whose truthy address parts are strings. */
  predicate UsableTags(f: map<string, Json>) {
    TagsOf(f).JObj? &&
    AddressTagUsable(TagsOf(f).fields, "addr:street") &&
    AddressTagUsable(TagsOf(f).fields, "addr:city")
  }

  /** What every accepted record satisfies: a truthy name, a non-empty
      address, and no distance yet. */
  predicate Normalised(h: Hospital) {
    Truthy(h.name) && h.address != "" && h.distance.None?
  }

  lemma AddressOfAccepts(tags: map<string, Json>)
    ensures AddressOf(JObj(tags)).Value? <==>
      AddressTagUsable(tags, "addr:street") && AddressTagUsable(tags, "addr:city")
    ensures AddressOf(JObj(tags)).Value? ==> AddressOf(JObj(tags)).value != ""
  {
    var street := if "addr:street" in tags then tags["addr:street"] else JNull;
    var city := if "addr:city" in tags then tags["addr:city"] else JNull;
    var parts := (if Truthy(street) then [street] else []) + (if Truthy(city) then [city] else []);
    if parts != [] && Join(parts, ", ").Value? {
      assert parts[0].s != "";
    }
  }

  lemma OrChainOnMapping(tags: map<string, Json>, keys: seq<string>, default: Json)
    ensures OrChain(JObj(tags), keys, default).Value?
    ensures Truthy(default) ==> Truthy(OrChain(JObj(tags), keys, default).value)
    decreases |keys|
  {
    if keys != [] {
      OrChainOnMapping(tags, keys[1..], default);
    }
  }

  lemma ParseElementAccepts(element: Json)
    ensures ParseElementBody(element).Value? && ParseElementBody(element).value.Some? <==>
      element.JObj? && PositionOf(element.fields).Some? && UsableTags(element.fields)
    ensures ParseElementBody(element).Value? && ParseElementBody(element).value.Some? ==>
      var h := ParseElementBody(element).value.value;
      (h.lat, h.lng) == PositionOf(element.fields).value && Normalised(h)
  {
    if element.JObj? {
      var f := element.fields;
      OrChainOnMapping(if TagsOf(f).JObj? then TagsOf(f).fields else map[], NameKeys, UnknownName);
      if TagsOf(f).JObj? {
        AddressOfAccepts(TagsOf(f).fields);
      }
    }
  }

  // ---------------------------------------------------------------------
  // Properties of one element
  // ---------------------------------------------------------------------

  /** Index `i` holds the first truthy tag among `keys`. */
  predicate FirstTruthyAt(tags: map<string, Json>, keys: seq<string>, i: int) {
    0 <= i < |keys| && TruthyTag(tags, keys[i]) &&
    forall j :: 0 <= j < i ==> !TruthyTag(tags, keys[j])
  }

  /** `v` is the value of the first truthy tag among `keys`, or `default`
      when none of them is truthy. */
  ghost predicate IsFirstTruthy(tags: map<string, Json>, keys: seq<string>, default: Json, v: Json) {
    (exists i :: FirstTruthyAt(tags, keys, i) && v == tags[keys[i]]) ||
    ((forall i :: 0 <= i < |keys| ==> !TruthyTag(tags, keys[i])) && v == default)
  }

  /** The `or` chain over a tag mapping picks the first truthy tag. */
  lemma {:induction false} OrChainIsFirstTruthy(tags: map<string, Json>, keys: seq<string>, default: Json)
    ensures OrChain(JObj(tags), keys, default).Value?
    ensures IsFirstTruthy(tags, keys, default, OrChain(JObj(tags), keys, default).value)
    decreases |keys|
  {
    if keys == [] {
    } else if TruthyTag(tags, keys[0]) {
      assert FirstTruthyAt(tags, keys, 0);
    } else {
      var rest := keys[1..];
      OrChainIsFirstTruthy(tags, rest, default);
      var v := OrChain(JObj(tags), rest, default).value;
      assert OrChain(JObj(tags), keys, default) == OrChain(JObj(tags), rest, default);
      if i :| FirstTruthyAt(tags, rest, i) && v == tags[rest[i]] {
        forall j | 0 <= j < i + 1
          ensures !TruthyTag(tags, keys[j])
        {
          if j > 0 {
            assert keys[j] == rest[j - 1];
          }
        }
        assert FirstTruthyAt(tags, keys, i + 1);
      } else {
        forall j | 0 <= j < |keys|
          ensures !TruthyTag(tags, keys[j])
        {
          if j > 0 {
            assert keys[j] == rest[j - 1];
          }
        }
      }
    }
  }

  /** The name is the first truthy of `name`, `name:en`, `operator`, and
      "Unknown Hospital" when none is, so it is never falsy. */
  lemma ParseElementName(f: map<string, Json>)
    requires ParseElement(JObj(f)).Some?
    ensures TagsOf(f).JObj?
    ensures IsFirstTruthy(TagsOf(f).fields, NameKeys, UnknownName, ParseElement(JObj(f)).value.name)
    ensures Truthy(ParseElement(JObj(f)).value.name)
  {
    OrChainIsFirstTruthy(TagsOf(f).fields, NameKeys, UnknownName);
  }

  /** The address joins the truthy street and city tags with ", ", in that
      order; with neither it is the sentinel. */
  lemma ParseElementAddress(f: map<string, Json>)
    requires ParseElement(JObj(f)).Some?
    ensures TagsOf(f).JObj?
    ensures
      var tags := TagsOf(f).fields;
      var a := ParseElement(JObj(f)).value.address;
      && (TruthyTag(tags, "addr:street") && TruthyTag(tags, "addr:city") ==>
            a == tags["addr:street"].s + ", " + tags["addr:city"].s)
      && (TruthyTag(tags, "addr:street") && !TruthyTag(tags, "addr:city") ==>
            a == tags["addr:street"].s)
      && (!TruthyTag(tags, "addr:street") && TruthyTag(tags, "addr:city") ==>
            a == tags["addr:city"].s)
      && (!TruthyTag(tags, "addr:street") && !TruthyTag(tags, "addr:city") ==>
            a == NoAddress)
  {
  }

  /** The facility type is the `healthcare` tag whenever the key exists,
      falsy or not, and "hospital" only when it is absent. */
  lemma ParseElementType(f: map<string, Json>)
    requires ParseElement(JObj(f)).Some?
    ensures TagsOf(f).JObj?
    ensures "healthcare" in TagsOf(f).fields ==>
      ParseElement(JObj(f)).value.facilityType == TagsOf(f).fields["healthcare"]
    ensures "healthcare" !in TagsOf(f).fields ==>
      ParseElement(JObj(f)).value.facilityType == DefaultType
  {
  }

  /** A node takes its own `lat`/`lon` and never looks at `center`. */
  lemma NodeIgnoresCenter(f: map<string, Json>, c: Json)
    requires "type" in f && f["type"] == JStr("node")
    ensures ParseElement(JObj(f["center" := c])) == ParseElement(JObj(f))
    ensures ParseElement(JObj(f - {"center"})) == ParseElement(JObj(f))
    ensures ParseElement(JObj(f)).Some? ==>
      ParseElement(JObj(f)).value.lat == f["lat"] && ParseElement(JObj(f)).value.lng == f["lon"]
  {
  }

  /** Any other type takes `center.lat`/`center.lon` and never looks at
      top-level `lat`/`lon`. */
  lemma OtherTypesIgnoreOwnPosition(f: map<string, Json>, lat: Json, lon: Json)
    requires "type" in f && f["type"] != JStr("node")
    ensures ParseElement(JObj(f["lat" := lat]["lon" := lon])) == ParseElement(JObj(f))
    ensures ParseElement(JObj(f)).Some? ==>
      "center" in f && f["center"].JObj? &&
      ParseElement(JObj(f)).value.lat == f["center"].fields["lat"] &&
      ParseElement(JObj(f)).value.lng == f["center"].fields["lon"]
  {
  }

  /** A missing key (`type`, a node's `lat`/`lon`, a center's `lat`/`lon`)
      rejects the element instead of raising out of the batch. */
  lemma MissingKeysReject(f: map<string, Json>)
    ensures "type" !in f ==> ParseElement(JObj(f)).None?
    ensures "type" in f && f["type"] == JStr("node") && ("lat" !in f || "lon" !in f) ==>
      ParseElement(JObj(f)).None?
    ensures "type" in f && f["type"] != JStr("node") && "center" !in f ==>
      ParseElement(JObj(f)).None?
    ensures "type" in f && f["type"] != JStr("node") && "center" in f && !f["center"].JObj? ==>
      ParseElement(JObj(f)).None?
    ensures "type" in f && f["type"] != JStr("node") && "center" in f && f["center"].JObj? ==>
      ("lat" !in f["center"].fields || "lon" !in f["center"].fields) ==> ParseElement(JObj(f)).None?
  {
  }

  /** An element without `tags` reads exactly like one with empty tags. */
  lemma MissingTagsAreEmpty(f: map<string, Json>)
    ensures ParseElement(JObj(f - {"tags"})) == ParseElement(JObj(f["tags" := JObj(map[])]))
  {
  }

  /** A node element that carries a record's fields as tags. */
  function ElementFor(h: Hospital): Json {
    JObj(map[
      "type" := JStr("node"),
      "lat" := h.lat,
      "lon" := h.lng,
      "tags" := JObj(map[
        "name" := h.name,
        "addr:street" := JStr(h.address),
        "healthcare" := h.facilityType])])
  }

  /** Every normalised record is the parse of some element, so parsing the
      element a parsed record describes gives that record back. */
  lemma ParseElementRoundTrip(h: Hospital)
    requires Normalised(h)
    ensures ParseElement(ElementFor(h)) == Some(h)
  {
    var tags := map["name" := h.name, "addr:street" := JStr(h.address), "healthcare" := h.facilityType];
    assert "addr:city" !in tags;
    assert OrChain(JObj(tags), NameKeys, UnknownName) == Value(h.name);
    assert AddressOf(JObj(tags)) == Value(h.address);
  }

  // ---------------------------------------------------------------------
  // The candidate list
  // ---------------------------------------------------------------------

  /** The element loop of `_search_hospitals`: the accepted records, in the
      order of their elements. */
  function FilterParse(elements: seq<Json>): (r: seq<Hospital>)
    ensures |r| <= |elements|
    ensures forall h :: h in r ==> exists i :: 0 <= i < |elements| && ParseElement(elements[i]) == Some(h)
  {
    if elements == [] then []
    else
      var rest := FilterParse(elements[1..]);
      assert forall h :: h in rest ==> exists i :: 0 <= i < |elements| && ParseElement(elements[i]) == Some(h) by {
        forall h | h in rest
          ensures exists i :: 0 <= i < |elements| && ParseElement(elements[i]) == Some(h)
        {
          var i :| 0 <= i < |elements[1..]| && ParseElement(elements[1..][i]) == Some(h);
          assert ParseElement(elements[i + 1]) == Some(h);
        }
      }
      match ParseElement(elements[0])
      case Some(h) => [h] + rest
      case None => rest
  }

  /** When every element is accepted, the candidates are their parses, one
      per element and in element order. */
  lemma {:induction false} FilterParseAllAccepted(elements: seq<Json>)
    requires forall i :: 0 <= i < |elements| ==> ParseElement(elements[i]).Some?
    ensures |FilterParse(elements)| == |elements|
    ensures forall i :: 0 <= i < |elements| ==> Some(FilterParse(elements)[i]) == ParseElement(elements[i])
    decreases |elements|
  {
    if elements != [] {
      var tail := elements[1..];
      assert forall i :: 0 <= i < |tail| ==> tail[i] == elements[i + 1];
      FilterParseAllAccepted(tail);
      var h := ParseElement(elements[0]).value;
      assert FilterParse(elements) == [h] + FilterParse(tail);
    }
  }

  /** When every element is rejected, there are no candidates. */
  lemma {:induction false} FilterParseNoneAccepted(elements: seq<Json>)
    requires forall i :: 0 <= i < |elements| ==> ParseElement(elements[i]).None?
    ensures FilterParse(elements) == []
    decreases |elements|
  {
    if elements != [] {
      var tail := elements[1..];
      assert forall i :: 0 <= i < |tail| ==> tail[i] == elements[i + 1];
      FilterParseNoneAccepted(tail);
    }
  }

  /** Filtering distributes over concatenation: each element contributes
      its own record, or nothing, at its own position. */
  lemma {:induction false} FilterParseAppend(xs: seq<Json>, ys: seq<Json>)
    ensures FilterParse(xs + ys) == FilterParse(xs) + FilterParse(ys)
    decreases |xs|
  {
    if xs == [] {
      assert xs + ys == ys;
    } else {
      assert (xs + ys)[1..] == xs[1..] + ys;
      FilterParseAppend(xs[1..], ys);
    }
  }

  /** One element contributes exactly its parse. */
  lemma FilterParseSingle(e: Json)
    ensures ParseElement(e).Some? ==> FilterParse([e]) == [ParseElement(e).value]
    ensures ParseElement(e).None? ==> FilterParse([e]) == []
  {
  }

  /** `_search_hospitals` after the request: the candidates of a decoded
      response. A failed request (None), a response that is not an object
      (`data.get` raises) and an `elements` value that is not a list all give
      no candidates: iterating an object or a string yields strings, which
      every parse rejects, and anything else is not iterable. */
  function Search(response: Option<Json>): (r: seq<Hospital>)
    ensures response.None? ==> r == []
    ensures r != [] ==>
      && response.Some? && response.value.JObj? && "elements" in response.value.fields
      && response.value.fields["elements"].JArr?
    ensures forall h :: h in r ==> Normalised(h)
  {
    match response
    case None => []
    case Some(data) =>
      match Get(data, "elements", JArr([]))
      case Value(JArr(elements)) => FilterParse(elements)
      case _ => []
  }

  /** The candidates are exactly the accepted elements, in order; a
      response without `elements` has none. */
  lemma SearchCandidates(data: map<string, Json>)
    ensures "elements" !in data ==> Search(Some(JObj(data))) == []
    ensures "elements" in data && data["elements"].JArr? ==>
      Search(Some(JObj(data))) == FilterParse(data["elements"].items)
    ensures "elements" in data && !data["elements"].JArr? ==> Search(Some(JObj(data))) == []
  {
  }

  // ---------------------------------------------------------------------
  // The nearest candidate
  // ---------------------------------------------------------------------

  /** `calculate_distance(lat1, lng1, lat2, lng2)`; None when it raises. */
  type Distance = (real, real, Json, Json) -> Option<real>

  function DistanceTo(lat: real, lng: real, h: Hospital, dist: Distance): Option<real> {
    dist(lat, lng, h.lat, h.lng)
  }

  /** Every candidate's distance can be computed. */
  predicate AllMeasured(lat: real, lng: real, cands: seq<Hospital>, dist: Distance) {
    forall i :: 0 <= i < |cands| ==> DistanceTo(lat, lng, cands[i], dist).Some?
  }

  /** The candidates' distances, position by position. */
  function Measured(lat: real, lng: real, cands: seq<Hospital>, dist: Distance): (ds: seq<real>)
    ensures |ds| == |cands|
  {
    seq(|cands|, i requires 0 <= i < |cands| => DistanceTo(lat, lng, cands[i], dist).GetOr(0.0))
  }

  /** `k` is the first position holding the least distance. */
  predicate IsFirstMinimum(ds: seq<real>, k: int) {
    0 <= k < |ds| &&
    (forall j :: 0 <= j < |ds| ==> ds[k] <= ds[j]) &&
    (forall j :: 0 <= j < k ==> ds[k] < ds[j])
  }

  /** The first minimum is unique: the selection is determined by the order. */
  lemma FirstMinimumUnique(ds: seq<real>, k1: int, k2: int)
    requires IsFirstMinimum(ds, k1) && IsFirstMinimum(ds, k2)
    ensures k1 == k2
  {
    assert ds[k1] == ds[k2];
  }

  /** The scan with a strict `<`: a later candidate replaces the current
      best only when strictly closer. */
  function FirstMinIndex(ds: seq<real>): (k: nat)
    requires |ds| > 0
    ensures IsFirstMinimum(ds, k)
  {
    if |ds| == 1 then 0
    else
      var k := FirstMinIndex(ds[..|ds| - 1]);
      if ds[|ds| - 1] < ds[k] then |ds| - 1 else k
  }

  /** The candidate at `k`, carrying the distance the loop stored in it. */
  function WithDistance(lat: real, lng: real, cands: seq<Hospital>, dist: Distance, k: nat): Hospital
    requires k < |cands|
  {
    cands[k].(distance := DistanceTo(lat, lng, cands[k], dist))
  }

  /** The selection `find_nearest_hospital` makes from a candidate list:
      nothing for an empty list or when a distance raises, otherwise the
      first closest candidate with its distance set. */
  function Nearest(lat: real, lng: real, cands: seq<Hospital>, dist: Distance): (r: Option<Hospital>)
    ensures r.None? <==> cands == [] || !AllMeasured(lat, lng, cands, dist)
    ensures r.Some? ==> exists k :: (IsFirstMinimum(Measured(lat, lng, cands, dist), k) &&
      r.value == WithDistance(lat, lng, cands, dist, k))
  {
    if cands == [] || !AllMeasured(lat, lng, cands, dist) then None
    else
      var k := FirstMinIndex(Measured(lat, lng, cands, dist));
      Some(WithDistance(lat, lng, cands, dist, k))
  }

  /** `h` is candidate `k` with its own distance stored, as close as every
      candidate and strictly closer than every earlier one. */
  ghost predicate ClosestAt(lat: real, lng: real, cands: seq<Hospital>, dist: Distance, k: int, h: Hospital) {
    && 0 <= k < |cands|
    && h == cands[k].(distance := h.distance)
    && h.distance == DistanceTo(lat, lng, cands[k], dist)
    && h.distance.Some?
    && (forall j :: 0 <= j < |cands| ==>
          DistanceTo(lat, lng, cands[j], dist).Some? && h.distance.value <= DistanceTo(lat, lng, cands[j], dist).value)
    && (forall j :: 0 <= j < k ==> h.distance.value < DistanceTo(lat, lng, cands[j], dist).value)
  }

  /** The selected record is a candidate at least as close as every other,
      strictly closer than every earlier one, and carries its distance. */
  lemma NearestIsFirstClosest(lat: real, lng: real, cands: seq<Hospital>, dist: Distance)
    requires Nearest(lat, lng, cands, dist).Some?
    ensures exists k :: ClosestAt(lat, lng, cands, dist, k, Nearest(lat, lng, cands, dist).value)
  {
    var ds := Measured(lat, lng, cands, dist);
    var k :| IsFirstMinimum(ds, k) && Nearest(lat, lng, cands, dist).value == WithDistance(lat, lng, cands, dist, k);
    assert forall j :: 0 <= j < |cands| ==> ds[j] == DistanceTo(lat, lng, cands[j], dist).value;
    assert ClosestAt(lat, lng, cands, dist, k, Nearest(lat, lng, cands, dist).value);
  }

  /** The distance loop of `find_nearest_hospital`: one pass that stores each
      distance and keeps the first strictly smaller one. `nearest == None`
      plays the initial `float('inf')`, which any distance beats. */
  method ScanNearest(lat: real, lng: real, hospitals: seq<Hospital>, dist: Distance)
    returns (r: Option<Hospital>)
    requires hospitals != []
    ensures r == Nearest(lat, lng, hospitals, dist)
  {
    ghost var ds := Measured(lat, lng, hospitals, dist);
    var nearest: Option<Hospital> := None;
    ghost var k: nat := 0;
    var i := 0;
    while i < |hospitals|
      invariant 0 <= i <= |hospitals|
      invariant forall j :: 0 <= j < i ==> DistanceTo(lat, lng, hospitals[j], dist).Some?
      invariant i == 0 <==> nearest.None?
      invariant i > 0 ==> k == FirstMinIndex(ds[..i])
      invariant i > 0 ==> nearest == Some(WithDistance(lat, lng, hospitals, dist, k))
    {
      var d := dist(lat, lng, hospitals[i].lat, hospitals[i].lng);
      if d.None? {
        // calculate_distance raised: the handler returns None
        assert DistanceTo(lat, lng, hospitals[i], dist).None?;
        return None;
      }
      assert ds[i] == d.value;
      ghost var prefix := ds[..i + 1];
      assert prefix[..i] == ds[..i];
      var h := hospitals[i].(distance := d);
      if nearest.None? || d.value < nearest.value.distance.value {
        nearest := Some(h);
        k := i;
      }
      i := i + 1;
    }
    assert ds[..i] == ds;
    return nearest;
  }

  /** `find_nearest_hospital`: search, give up on an empty list, scan. */
  method FindNearestHospital(lat: real, lng: real, response: Option<Json>, dist: Distance)
    returns (r: Option<Hospital>)
    ensures r == Nearest(lat, lng, Search(response), dist)
  {
    var hospitals := Search(response);
    if hospitals == [] {
      return None;
    }
    r := ScanNearest(lat, lng, hospitals, dist);
  }

  // ---------------------------------------------------------------------
  // Worked examples
  // ---------------------------------------------------------------------

  /** A way with a center and a name tag. */
  lemma WayWithCenterExample()
    ensures ParseElement(JObj(map[
      "type" := JStr("way"),
      "center" := JObj(map["lat" := JNum(10.0), "lon" := JNum(20.0)]),
      "tags" := JObj(map["name" := JStr("City Hospital")])])) ==
      Some(Hospital(JStr("City Hospital"), JNum(10.0), JNum(20.0), NoAddress, DefaultType, None))
  {
  }

  /** Without name tags the operator names the facility; without that too,
      the placeholder does. */
  lemma OperatorNameExample()
    ensures OrChain(JObj(map["operator" := JStr("Acme Health")]), NameKeys, UnknownName) == Value(JStr("Acme Health"))
    ensures OrChain(JObj(map["name" := JStr(""), "addr:city" := JStr("Pune")]), NameKeys, UnknownName) == Value(UnknownName)
  {
  }

  /** Distances 300, 150, 900 select the second candidate; with a tie the
      earlier one is kept. */
  lemma NearestExample()
    ensures FirstMinIndex([300.0, 150.0, 900.0]) == 1
    ensures FirstMinIndex([150.0, 300.0, 150.0]) == 0
  {
    assert IsFirstMinimum([300.0, 150.0, 900.0], 1);
    FirstMinimumUnique([300.0, 150.0, 900.0], 1, FirstMinIndex([300.0, 150.0, 900.0]));
    assert IsFirstMinimum([150.0, 300.0, 150.0], 0);
    FirstMinimumUnique([150.0, 300.0, 150.0], 0, FirstMinIndex([150.0, 300.0, 150.0]));
  }

  /** An empty or failed search locates nothing. */
  lemma NothingFoundExample(lat: real, lng: real, dist: Distance)
    ensures Nearest(lat, lng, Search(None), dist).None?
    ensures Nearest(lat, lng, Search(Some(JObj(map["elements" := JArr([])]))), dist).None?
  {
  }
}

=== FILE: pyjson.dfy ===
/** JSON values as the services receive them from their providers and from the
    request body, and the handful of Python operations the services apply to
    them. Each operation returns the exception Python would raise on a value
    of the wrong shape, so that the services' `try`/`except` blocks can be
    modelled exactly: `:-` propagates a raise the way Python unwinds. */
module PyJson {

  datatype Option<+T> = None | Some(value: T) {

    /** Returns the value in Some, or `default` for None. */
    function GetOr(default: T): T {
      match this
      case Some(v) => v
      case None => default
    }
  }

  /** The built-in exceptions the services can raise while probing data. */
  datatype PyError = KeyError | IndexError | TypeError | AttributeError | ValueError

  /** The outcome of evaluating a Python expression: a value or a raise. */
  datatype PyResult<+T> = Value(value: T) | Raise(error: PyError) {

    predicate IsFailure() {
      Raise?
    }

    function PropagateFailure<U>(): PyResult<U>
      requires Raise?
    {
      Raise(error)
    }

    function Extract(): T
      requires Value?
    {
      value
    }
  }

  /** A decoded JSON document. Objects are maps: key order is not modelled. */
  datatype Json =
    | JNull
    | JBool(b: bool)
    | JNum(n: real)
    | JStr(s: string)
    | JArr(items: seq<Json>)
    | JObj(fields: map<string, Json>)

  /** Python truthiness of a decoded JSON value. */
  predicate Truthy(v: Json) {
    match v
    case JNull => false
    case JBool(b) => b
    case JNum(n) => n != 0.0
    case JStr(s) => s != ""
    case JArr(a) => a != []
    case JObj(m) => m != map[]
  }

  /** Python's `sub in s` on strings: `sub` occurs in `s` at some offset. */
  predicate IsSubstring(sub: string, s: string)
    decreases |s|
  {
    (|sub| <= |s| && s[..|sub|] == sub) || (s != [] && IsSubstring(sub, s[1..]))
  }

  /** `sub` occurs in `s` starting at offset `i`. */
  predicate OccursAt(sub: string, s: string, i: int) {
    0 <= i && i + |sub| <= |s| && s[i..i + |sub|] == sub
  }

  /** The recursive test agrees with the offset-based reading of `in`. */
  lemma {:induction false} IsSubstringAtOffset(sub: string, s: string)
    ensures IsSubstring(sub, s) <==> exists i :: OccursAt(sub, s, i)
    decreases |s|
  {
    if IsSubstring(sub, s) {
      if |sub| <= |s| && s[..|sub|] == sub {
        assert OccursAt(sub, s, 0);
      } else {
        IsSubstringAtOffset(sub, s[1..]);
        var i :| OccursAt(sub, s[1..], i);
        assert s[i + 1..i + 1 + |sub|] == s[1..][i..i + |sub|];
        assert OccursAt(sub, s, i + 1);
      }
    }
    if exists i :: OccursAt(sub, s, i) {
      var i :| OccursAt(sub, s, i);
      if i == 0 {
        assert s[..|sub|] == s[0..0 + |sub|];
      } else {
        assert s[1..][i - 1..i - 1 + |sub|] == s[i..i + |sub|];
        assert OccursAt(sub, s[1..], i - 1);
        IsSubstringAtOffset(sub, s[1..]);
      }
    }
  }

  /** Python's `key in v` for a string `key`: membership among a dict's keys,
      among a list's items, or as a substring of a string; anything else is
      not a container and raises TypeError. */
  function Contains(v: Json, key: string): (r: PyResult<bool>)
    ensures r.Value? <==> v.JObj? || v.JArr? || v.JStr?
    ensures v.JObj? ==> r == Value(key in v.fields)
    ensures v.JArr? ==> r == Value(exists i :: 0 <= i < |v.items| && v.items[i] == JStr(key))
    ensures v.JStr? ==> r == Value(exists i :: OccursAt(key, v.s, i))
    ensures r.Raise? ==> r.error == TypeError
  {
    match v
    case JObj(m) => Value(key in m)
    case JArr(a) => Value(JStr(key) in a)
    case JStr(s) =>
      IsSubstringAtOffset(key, s);
      Value(IsSubstring(key, s))
    case _ => Raise(TypeError)
  }

  /** Python's `v[key]` for a string `key`: only a dict holding the key
      yields a value; lists and strings need integer indices. */
  function Subscript(v: Json, key: string): (r: PyResult<Json>)
    ensures r.Value? <==> v.JObj? && key in v.fields
    ensures r.Value? ==> r.value == v.fields[key]
    ensures r.Raise? && v.JObj? ==> r.error == KeyError
    ensures r.Raise? && !v.JObj? ==> r.error == TypeError
  {
    match v
    case JObj(m) => if key in m then Value(m[key]) else Raise(KeyError)
    case _ => Raise(TypeError)
  }

  /** Python's `v.get(key, default)`: only dicts have `get`. */
  function Get(v: Json, key: string, default: Json): (r: PyResult<Json>)
    ensures r.Value? <==> v.JObj?
    ensures v.JObj? && key in v.fields ==> r == Value(v.fields[key])
    ensures v.JObj? && key !in v.fields ==> r == Value(default)
    ensures r.Raise? ==> r.error == AttributeError
  {
    match v
    case JObj(m) => Value(if key in m then m[key] else default)
    case _ => Raise(AttributeError)
  }

  /** Python's `v[i]` for a non-negative integer `i`: list items and the
      one-character strings of a string; a dict raises KeyError because
      JSON object keys are never integers. */
  function Item(v: Json, i: nat): (r: PyResult<Json>)
    ensures r.Value? <==> (v.JArr? && i < |v.items|) || (v.JStr? && i < |v.s|)
    ensures v.JArr? && i < |v.items| ==> r == Value(v.items[i])
    ensures v.JStr? && i < |v.s| ==> r == Value(JStr([v.s[i]]))
    ensures r.Raise? && (v.JArr? || v.JStr?) ==> r.error == IndexError
    ensures v.JObj? ==> r == Raise(KeyError)
    ensures !v.JArr? && !v.JStr? && !v.JObj? ==> r == Raise(TypeError)
  {
    match v
    case JArr(a) => if i < |a| then Value(a[i]) else Raise(IndexError)
    case JStr(s) => if i < |s| then Value(JStr([s[i]])) else Raise(IndexError)
    case JObj(_) => Raise(KeyError)
    case _ => Raise(TypeError)
  }

  /** Python's `float(s)` on a string: a parse that may fail. */
  type FloatParser = string -> Option<real>

  /** Python's `float(v)`: numbers convert, booleans become 1.0 and 0.0,
      an unparsable string raises ValueError, anything else TypeError. */
  function ToFloat(v: Json, parse: FloatParser): (r: PyResult<real>)
    ensures r.Raise? && r.error == ValueError <==> v.JStr? && parse(v.s).None?
    ensures r.Value? <==> v.JNum? || v.JBool? || (v.JStr? && parse(v.s).Some?)
    ensures v.JNum? ==> r == Value(v.n)
    ensures v.JBool? ==> r == Value(if v.b then 1.0 else 0.0)
    ensures v.JStr? && parse(v.s).Some? ==> r == Value(parse(v.s).value)
    ensures r.Raise? && r.error != ValueError ==> r.error == TypeError
  {
    match v
    case JNum(n) => Value(n)
    case JBool(b) => Value(if b then 1.0 else 0.0)
    case JStr(s) =>
      (match parse(s)
       case Some(x) => Value(x)
       case None => Raise(ValueError))
    case _ => Raise(TypeError)
  }

  /** Python's `sep.join(parts)`: every part must be a string. */
  function Join(parts: seq<Json>, sep: string): (r: PyResult<string>)
    ensures r.Value? <==> forall i :: 0 <= i < |parts| ==> parts[i].JStr?
    ensures |parts| == 1 && r.Value? ==> r.value == parts[0].s
    ensures |parts| == 2 && r.Value? ==> r.value == parts[0].s + sep + parts[1].s
    ensures r.Value? && parts != [] ==> |r.value| >= |parts[0].s|
  {
    if parts == [] then Value("")
    else if !parts[0].JStr? then Raise(TypeError)
    else if |parts| == 1 then Value(parts[0].s)
    else
      var rest :- Join(parts[1..], sep);
      Value(parts[0].s + sep + rest)
  }
}

=== FILE: routing.dfy ===
/** The route planner of `RoutingService`: the OSRM waypoint string, the
    checks on the decoded response, and the reordering of the first route's
    GeoJSON `[longitude, latitude]` positions (section 3.1.1 of RFC 7946)
    into `[latitude, longitude]` points. The HTTP exchange is a parameter:
    a function from the waypoint string to the decoded response, None when
    the request, the status check or the JSON decoding failed. */
module RoutingService {
  import opened PyJson

  /** One point of the returned route, `[coord[1], coord[0]]`. */
  datatype LatLng = LatLng(lat: Json, lng: Json)

  /** Python's `str()` of a value, as an f-string renders it. */
  type Render = Json -> string

  /** The OSRM service: decoded response for a waypoint string. */
  type Osrm = string -> Option<Json>

  // ---------------------------------------------------------------------
  // Waypoints
  // ---------------------------------------------------------------------

  /** `f"{start_lng},{start_lat};{end_lng},{end_lat}"`. */
  function Waypoints(startLat: real, startLng: real, endLat: Json, endLng: Json, render: Render): (r: string)
    ensures |r| == |render(JNum(startLng))| + |render(JNum(startLat))| + |render(endLng)| + |render(endLat)| + 3
    ensures r[..|render(JNum(startLng))|] == render(JNum(startLng))
    ensures r[|r| - |render(endLat)|..] == render(endLat)
  {
    render(JNum(startLng)) + "," + render(JNum(startLat)) + ";" + render(endLng) + "," + render(endLat)
  }

  /** Python's `s.split(sep)` for a one-character separator. */
  function Split(s: string, sep: char): (r: seq<string>)
    ensures |r| >= 1
    decreases |s|
  {
    if s == [] then [[]]
    else if s[0] == sep then [[]] + Split(s[1..], sep)
    else
      var rest := Split(s[1..], sep);
      [[s[0]] + rest[0]] + rest[1..]
  }

  /** A piece without the separator splits to itself. */
  lemma {:induction false} SplitNoSeparator(a: string, sep: char)
    requires sep !in a
    ensures Split(a, sep) == [a]
    decreases |a|
  {
    if a != [] {
      SplitNoSeparator(a[1..], sep);
      assert [a[0]] + a[1..] == a;
    }
  }

  /** Splitting at the first separator. */
  lemma {:induction false} SplitAtSeparator(a: string, sep: char, b: string)
    requires sep !in a
    ensures Split(a + [sep] + b, sep) == [a] + Split(b, sep)
    decreases |a|
  {
    if a == [] {
      assert a + [sep] + b == [sep] + b;
      assert ([sep] + b)[1..] == b;
    } else {
      var s := a + [sep] + b;
      assert s[1..] == a[1..] + [sep] + b;
      SplitAtSeparator(a[1..], sep, b);
      assert [a[0]] + a[1..] == a;
    }
  }

  /** The waypoint string names the start and then the end, each as
      longitude before latitude: splitting it on ';' and then ',' recovers
      the four rendered numbers in that order, provided no rendering
      contains a separator (true of Python's float formatting). */
  lemma WaypointsLongitudeFirst(startLat: real, startLng: real, endLat: Json, endLng: Json, render: Render)
    requires forall v :: v in [JNum(startLat), JNum(startLng), endLat, endLng] ==>
      ',' !in render(v) && ';' !in render(v)
    ensures
      var legs := Split(Waypoints(startLat, startLng, endLat, endLng, render), ';');
      && |legs| == 2
      && Split(legs[0], ',') == [render(JNum(startLng)), render(JNum(startLat))]
      && Split(legs[1], ',') == [render(endLng), render(endLat)]
  {
    var a, b := render(JNum(startLng)), render(JNum(startLat));
    var c, d := render(endLng), render(endLat);
    var first := a + "," + b;
    var second := c + "," + d;
    assert ';' !in first;
    assert ';' !in second;
    assert Waypoints(startLat, startLng, endLat, endLng, render) == first + [';'] + second;
    SplitAtSeparator(first, ';', second);
    SplitNoSeparator(second, ';');
    assert first == a + [','] + b;
    SplitAtSeparator(a, ',', b);
    SplitNoSeparator(b, ',');
    assert second == c + [','] + d;
    SplitAtSeparator(c, ',', d);
    SplitNoSeparator(d, ',');
  }

  // ---------------------------------------------------------------------
  // Reprojection
  // ---------------------------------------------------------------------

  /** `coord[1]` and `coord[0]` both exist. */
  predicate HasPair(coord: Json) {
    Item(coord, 1).Value? && Item(coord, 0).Value?
  }

  /** `[[coord[1], coord[0]] for coord in cs]`; the first coordinate
      without two components raises. */
  function SwapAll(cs: seq<Json>): (r: PyResult<seq<LatLng>>)
    ensures r.Value? <==> forall i :: 0 <= i < |cs| ==> HasPair(cs[i])
    ensures r.Value? ==> |r.value| == |cs|
    ensures r.Value? ==> forall i :: 0 <= i < |cs| ==>
      r.value[i] == LatLng(Item(cs[i], 1).value, Item(cs[i], 0).value)
  {
    if cs == [] then Value([])
    else
      var lat :- Item(cs[0], 1);
      var lng :- Item(cs[0], 0);
      var rest :- SwapAll(cs[1..]);
      assert forall i :: 1 <= i < |cs| ==> cs[i] == cs[1..][i - 1];
      Value([LatLng(lat, lng)] + rest)
  }

  /** The comprehension over whatever `coordinates` holds: a list yields its
      items and a string its one-character strings (none of which has a
      second component); anything else but an empty object is not
      iterated here. */
  function Reproject(coordinates: Json): (r: PyResult<seq<LatLng>>)
    ensures coordinates.JArr? ==> r == SwapAll(coordinates.items)
    ensures coordinates.JStr? ==> (r.Value? <==> coordinates.s == [])
    ensures coordinates.JObj? ==> (r.Value? <==> coordinates.fields == map[])
    ensures !coordinates.JArr? && !coordinates.JStr? && !coordinates.JObj? ==> r == Raise(TypeError)
    ensures r.Value? && !coordinates.JArr? ==> r.value == []
  {
    match coordinates
    case JArr(cs) => SwapAll(cs)
    case JStr(s) => SwapAll(seq(|s|, i requires 0 <= i < |s| => JStr([s[i]])))
    case JObj(m) => if m == map[] then Value([]) else Raise(TypeError)
    case _ => Raise(TypeError)
  }

  // ---------------------------------------------------------------------
  // The response
  // ---------------------------------------------------------------------

  /** The part of `get_route` after `response.json()`, inside its `try`. */
  function RouteBody(data: Json): PyResult<Option<seq<LatLng>>>
  {
    var code :- Get(data, "code", JNull);
    if code != JStr("Ok") then Value(None)
    else
      var routes :- Get(data, "routes", JArr([]));
      if !Truthy(routes) then Value(None)
      else
        var first :- Item(routes, 0);
        var geometry :- Get(first, "geometry", JObj(map[]));
        var coordinates :- Get(geometry, "coordinates", JArr([]));
        var points :- Reproject(coordinates);
        Value(Some(points))
  }

  /** The route a decoded response describes; every exception gives None. */
  function RouteOf(data: Json): (r: Option<seq<LatLng>>)
    ensures r.Some? ==>
      && data.JObj? && "code" in data.fields && data.fields["code"] == JStr("Ok")
      && "routes" in data.fields && Truthy(data.fields["routes"])
  {
    match RouteBody(data)
    case Value(r) => r
    case Raise(_) => None
  }

  /** `get_route`: the request for the waypoints, then the checks. */
  function GetRoute(startLat: real, startLng: real, endLat: Json, endLng: Json, render: Render, osrm: Osrm)
    : (r: Option<seq<LatLng>>)
    ensures r.Some? ==> osrm(Waypoints(startLat, startLng, endLat, endLng, render)).Some?
    ensures r.Some? ==>
      var data := osrm(Waypoints(startLat, startLng, endLat, endLng, render)).value;
      data.JObj? && "code" in data.fields && data.fields["code"] == JStr("Ok")
  {
    match osrm(Waypoints(startLat, startLng, endLat, endLng, render))
    case None => None
    case Some(data) => RouteOf(data)
  }

  // ---------------------------------------------------------------------
  // Properties
  // ---------------------------------------------------------------------

  /** A response that is not an object, or whose `code` is missing or not
      exactly "Ok", gives no route. */
  lemma StatusMustBeOk(data: Json)
    requires !data.JObj? || "code" !in data.fields || data.fields["code"] != JStr("Ok")
    ensures RouteOf(data).None?
  {
  }

  /** With status "Ok", missing, empty or otherwise falsy `routes` give no route. */
  lemma RoutesMustBePresent(m: map<string, Json>)
    requires "code" in m && m["code"] == JStr("Ok")
    requires "routes" !in m || !Truthy(m["routes"])
    ensures RouteOf(JObj(m)).None?
  {
  }

  /** Only the first route alternative is read: whatever follows it has no
      effect on the result. */
  lemma OnlyFirstRouteUsed(m: map<string, Json>, first: Json, rest: seq<Json>)
    ensures RouteOf(JObj(m["routes" := JArr([first] + rest)])) == RouteOf(JObj(m["routes" := JArr([first])]))
  {
  }

  /** A first route without `geometry`, or a geometry without
      `coordinates`, is an empty route rather than a failure. */
  lemma MissingGeometryIsEmpty(m: map<string, Json>, first: map<string, Json>)
    requires "code" in m && m["code"] == JStr("Ok")
    requires "routes" in m && m["routes"].JArr? && |m["routes"].items| > 0 && m["routes"].items[0] == JObj(first)
    ensures "geometry" !in first ==> RouteOf(JObj(m)) == Some([])
    ensures "geometry" in first && first["geometry"].JObj? && "coordinates" !in first["geometry"].fields ==>
      RouteOf(JObj(m)) == Some([])
  {
  }

  /** A well-formed "Ok" response whose first route carries the list `cs`. */
  predicate CarriesCoordinates(m: map<string, Json>, cs: seq<Json>) {
    && "code" in m && m["code"] == JStr("Ok")
    && "routes" in m && m["routes"].JArr? && |m["routes"].items| > 0
    && m["routes"].items[0].JObj?
    && "geometry" in m["routes"].items[0].fields
    && m["routes"].items[0].fields["geometry"].JObj?
    && "coordinates" in m["routes"].items[0].fields["geometry"].fields
    && m["routes"].items[0].fields["geometry"].fields["coordinates"] == JArr(cs)
  }

  /** On success every `[lng, lat, ...]` position becomes `[lat, lng]`, in
      order, one point per position, extra components dropped; a position
      with fewer than two components fails the whole route. */
  lemma RouteSwapsEachPosition(m: map<string, Json>, cs: seq<Json>)
    requires CarriesCoordinates(m, cs)
    ensures RouteOf(JObj(m)).Some? <==> forall i :: 0 <= i < |cs| ==> HasPair(cs[i])
    ensures RouteOf(JObj(m)).Some? ==>
      |RouteOf(JObj(m)).value| == |cs| &&
      forall i :: 0 <= i < |cs| && cs[i].JArr? ==>
        RouteOf(JObj(m)).value[i] == LatLng(cs[i].items[1], cs[i].items[0])
  {
  }

  /** GeoJSON positions `[lng, lat]` for a list of points. */
  function ToPositions(points: seq<LatLng>): (cs: seq<Json>)
    ensures |cs| == |points|
    ensures forall i :: 0 <= i < |points| ==> cs[i] == JArr([points[i].lng, points[i].lat])
  {
    seq(|points|, i requires 0 <= i < |points| => JArr([points[i].lng, points[i].lat]))
  }

  /** Reordering undoes the conversion to GeoJSON positions. */
  lemma ReprojectToPositions(points: seq<LatLng>)
    ensures Reproject(JArr(ToPositions(points))) == Value(points)
  {
    var cs := ToPositions(points);
    assert forall i :: 0 <= i < |cs| ==> HasPair(cs[i]);
    var r := SwapAll(cs).value;
    assert forall i :: 0 <= i < |cs| ==> r[i] == points[i];
    assert r == points;
  }

  /** ... and, for two-component positions, converting back to GeoJSON
      positions undoes the reordering. */
  lemma PositionsOfReprojected(cs: seq<Json>)
    requires forall i :: 0 <= i < |cs| ==> cs[i].JArr? && |cs[i].items| == 2
    ensures Reproject(JArr(cs)).Value?
    ensures ToPositions(Reproject(JArr(cs)).value) == cs
  {
    assert forall i :: 0 <= i < |cs| ==> HasPair(cs[i]);
    var points := Reproject(JArr(cs)).value;
    forall i | 0 <= i < |cs|
      ensures ToPositions(points)[i] == cs[i]
    {
      assert cs[i].items == [cs[i].items[0], cs[i].items[1]];
    }
  }

  /** Two positions of the OSRM documentation's shape, reordered. */
  lemma ReprojectExample()
    ensures Reproject(JArr([JArr([JNum(20.0), JNum(10.0)]), JArr([JNum(21.0), JNum(11.0)])])) ==
      Value([LatLng(JNum(10.0), JNum(20.0)), LatLng(JNum(11.0), JNum(21.0))])
  {
    ReprojectToPositions([LatLng(JNum(10.0), JNum(20.0)), LatLng(JNum(11.0), JNum(21.0))]);
    assert ToPositions([LatLng(JNum(10.0), JNum(20.0)), LatLng(JNum(11.0), JNum(21.0))]) ==
      [JArr([JNum(20.0), JNum(10.0)]), JArr([JNum(21.0), JNum(11.0)])];
  }
}
